=== FILE: README.md ===
# B-roll enrichment worker: a Dafny model

This project models the decision logic of the b-roll enrichment worker (`tasks.py`). A user's video is
transcribed. A chat model names keywords with timestamps. One stock clip is fetched per keyword. A
chat model, or a fallback, turns the clips into an edit plan. The main video and the b-roll are cut
together into one output, and the job record moves `processing` → `completed`/`failed`.

The AI, HTTP, storage and media libraries are not modelled. Their results are inputs:

- a model reply is a `Parsed` value: `DecodeError`, or `Decoded(v)` for a JSON value `v`;
- the stock search is a function from a keyword value to `SearchFailed` or a list of hits;
- the services of one run form a `Services` record: main download ok, the two replies (or `None` when
  the call raised), the search, the main video's duration, whether rendering the segment list
  succeeds, whether the upload succeeds, and the public URL.

Modules, one per piece of `tasks.py`:

- `JsonValues` (json.dfy): decoded JSON values. Key access succeeds only on a dict holding the key.
- `Outcomes` (outcomes.dfy): the exceptions as a `Failure` enum, with `Option` and `Result`.
- `KeywordExtraction` (keywords.dfy): interpreting the keyword reply.
- `BrollResolver` (broll.dfy): variant choice and the per-keyword loop of `fetch_broll_clips`.
- `EditPlanning` (edit_plan.dfy): plan validation and the fallback plan of `generate_edit_plan`.
- `VideoAssembly` (assembly.dfy): the cursor-driven segment loop of `create_final_video`.
- `Orchestrator` (pipeline.dfy): the stage sequence, status writes and scratch files of `process_video_with_broll`.
- `Scenarios` (scenarios.dfy): worked examples of variant choice and assembly.

Each loop that appends to a list (tasks.py:157, 250, 273) is a method. It is proved equal to a
specification function (`BrollClips`, `FallbackPlan`, `Timeline`). The validation loop at
tasks.py:235 only checks edits, and it is the recursive function `FirstEditError`. Lemmas then
state the source's promises about those functions.

Points where the code behaves differently from what one might expect of such a worker:

- Only a JSON decode failure falls back. A decoded non-array raises. A decoded array is used
  without checking its items. A plan with a missing key or an unknown `clip_id` raises too.
- The assembler does not sort the plan. An out-of-order or overlapping edit moves the cursor
  back, and main footage plays twice (`UnsortedPlanReplaysFootage`).
- A b-roll segment replaces the main footage under it. So a sorted, non-overlapping plan that
  ends within the main video yields an output exactly as long as the main video
  (`OutputLength`), not the main video's length plus the b-roll durations.
- Scratch files are removed only on the success path.
- The variant rule takes the first file that is `md` or below 1080 lines. It does not prefer an
  `md` file further down the list over an earlier low-resolution one
  (`LowResolutionFileBeforeMediumWins`).

## Model

| member | source | states |
|---|---|---|
| `KeywordExtraction.InterpretKeywordReply` | tasks.py:135-148 | A decode failure gives exactly `[{"keyword": "general", "timestamp": 0}]`. A decoded array is returned unchanged. Any other decoded value raises `NotAList`, and nothing else raises. |
| `BrollResolver.FirstQualifying` | tasks.py:176-178 | Finds the first file from `from` on with quality `md` or height below 1080. No earlier file qualifies. It gives `|files|` when none does. |
| `BrollResolver.ChooseVariant` | tasks.py:176-180 | Fails exactly when `video_files` is empty, because the default is evaluated eagerly. If some file qualifies, the choice is the first qualifying file. Otherwise it is `video_files[0]`. |
| `BrollResolver.ClipFor` | tasks.py:158-192 | One keyword raises out of the loop exactly when it cannot be indexed by `'keyword'`. Otherwise it gives a clip exactly when search, hit, variant and `timestamp` all exist. The clip carries the keyword's `keyword` and `timestamp`, the hit's duration, and the link of the variant `ChooseVariant` picks from the first hit's files. |
| `BrollResolver.FetchBrollClips` | tasks.py:150-194 | The loop appending to `broll_clips` returns exactly `BrollClips(keywords, search)`. The loop stops at the first keyword that raises. |
| `BrollResolver.BrollClipsErrorIsFinal` | tasks.py:191-192 | Once an item has raised, the items after it are never processed. |
| `BrollResolver.KeptPositions` | tasks.py:157-190 | Gives the positions of the keywords that yield a clip. They are strictly increasing and in range, and there are at most as many as keywords. A position is listed iff that keyword resolves. |
| `BrollResolver.BrollClipsFailIff` | tasks.py:157-192 | The resolver raises (`KeywordUnreadable`) iff some item cannot be indexed by `'keyword'`. Searches that fail or return nothing only drop keywords. |
| `BrollResolver.BrollClipsOrderedSubsequence` | tasks.py:157-194 | On success, clip `j` is what keyword `KeptPositions[j]` yields. The clips are an order-preserving subsequence of the keywords and no longer than them. |
| `EditPlanning.EditError` | tasks.py:236-241 | An edit passes iff it is a dict with all four keys whose `clip_id` equals some clip's keyword. A missing key is reported before an unknown clip id. |
| `EditPlanning.FirstEditError` | tasks.py:235-241 | No error iff every edit passes. Otherwise the error is that of the first failing edit, and every edit before it passes. |
| `EditPlanning.CheckPlan` | tasks.py:229-244 | A decoded plan is accepted iff it is an array whose every edit passes, and it is then returned unchanged. A non-array raises `NotAList`. A rejected array raises the first failing edit's error. |
| `EditPlanning.MinThree` | tasks.py:254 | The duration `min(3, d)` is at most 3 and at most `d`, and equals one of them. |
| `EditPlanning.FallbackEdit` | tasks.py:251-256 | A fallback edit has exactly the four keys. It holds action `insert_broll`, the clip's timestamp, the clip's keyword as `clip_id`, and duration `min(3, clip.duration)`. |
| `EditPlanning.FallbackPlan` | tasks.py:249-258 | One fallback edit per clip, in clip order. No clips give an empty plan. |
| `EditPlanning.GenerateEditPlan` | tasks.py:229-262 | The validation, or on a decode failure the loop appending to `fallback_plan`, returns exactly `EditPlan(reply, clips)`. |
| `EditPlanning.FallbackPlanPassesValidation` | tasks.py:235-258 | The fallback plan would itself pass the validation imposed on the model's plan. |
| `EditPlanning.EditPlanEntriesAreValid` | tasks.py:229-262 | Every edit `generate_edit_plan` returns, from either branch, has all four keys and names a resolved clip. |
| `EditPlanning.NoClipsNoEdits` | tasks.py:240-258 | With no resolved clips, the only plan that survives is the empty one. |
| `VideoAssembly.FirstClipNamed` | tasks.py:281 | Finds the first clip from `from` on whose keyword equals the id, or gives `|clips|`. |
| `VideoAssembly.LookupClip` | tasks.py:281 | `next(...)` without a default succeeds iff the edit has a `clip_id` and some clip has that keyword. It returns the first such clip. |
| `VideoAssembly.Step` | tasks.py:274-289 | One loop pass succeeds iff the edit has a numeric timestamp, a numeric duration and a matching clip. |
| `VideoAssembly.AssembleTimeline` | tasks.py:270-293 | The cursor loop over the plan, plus the trailing check, returns exactly `Timeline(plan, clips, mainDuration)`. |
| `VideoAssembly.RunOfUsablePrefix` | tasks.py:271-289 | After `n` usable edits the emitted segments are the edits' own contributions, and `current_time` is where edit `n-1`'s b-roll ends (0 when `n = 0`). |
| `VideoAssembly.TimelineOfUsablePlan` | tasks.py:270-293 | The edits are taken in the given order. Each emits `Main(cursor, ts)` only when `ts > cursor`, then always `Broll(clip, 0, dur)` with a 0.5 s fade. The cursor becomes `ts + dur`. `Main(cursor, mainDuration)` follows exactly when `cursor < mainDuration`. |
| `VideoAssembly.RunOkIff` | tasks.py:273-289 | The loop finishes without raising iff every edit is usable. |
| `VideoAssembly.TimelineSucceedsIff` | tasks.py:273-293 | Assembly raises iff some edit lacks a numeric timestamp or duration, or names no clip. |
| `VideoAssembly.SegmentCount` | tasks.py:270-293 | Segment count = number of edits + number of edits with `ts > cursor` + 1 if trailing footage remains. |
| `VideoAssembly.OutputLength` | tasks.py:270-293 | The output is never shorter than the main video. It is exactly as long iff no edit starts before the cursor and the last b-roll ends within the main video. |
| `VideoAssembly.EmptyPlanKeepsMainVideo` | tasks.py:291-293 | An empty plan yields the single segment `Main(0, mainDuration)` when the duration is positive, and nothing otherwise. |
| `Orchestrator.ClipTimestampsAreNumeric` | tasks.py:182-187 | If every keyword item has a `keyword` and any `timestamp` it has is a number, the resolver succeeds and every clip's timestamp is a number. |
| `Orchestrator.FallbackPlanAssemblesIff` | tasks.py:249-289 | The fallback plan assembles iff every clip timestamp is a number. Those timestamps are copied unchecked from the keyword reply. |
| `Orchestrator.DecodeFailuresNeverFailTheLogic` | tasks.py:70-102 | When both replies fail to decode, every stage of the worker's own logic succeeds. Only rendering and upload can still fail the job. |
| `Orchestrator.RunsAlternateAppend` | tasks.py:67-106 | Appending one run's `processing` and terminal status keeps the history in the form `processing, terminal` repeated. |
| `Orchestrator.Worker.RunStages` | tasks.py:70-98 | The stages run in order and the first that raises ends the run. On success the main video and output files are unlinked. On failure they are left on disk. |
| `Orchestrator.Worker.ProcessVideoWithBroll` | tasks.py:63-107 | The status writes are exactly `processing` then `completed(url)` on success, or `processing` then `failed` (no URL) with the error re-raised. Scratch files are removed only on success. The alternating history is preserved. |
| `Scenarios.LowResolutionFileBeforeMediumWins` | tasks.py:176-180 | Files `[sd/360, md/720]` give the `sd` 360-line file: the first qualifying file wins, with no preference for `md`. |
| `Scenarios.NoQualifyingFileTakesFirst` | tasks.py:176-180 | Files `[hd/1080, uhd/2160]`, none qualifying, give the first file. |
| `Scenarios.MountainAndRiver` | tasks.py:270-293 | Edits at 10 s and 25 s of 3 s each give `Main[0,10)`, mountain, `Main[13,25)`, river, `Main[28,end)`. |
| `Scenarios.UnsortedPlanReplaysFootage` | tasks.py:273-293 | An edit at 5 s after one at 20 s moves the cursor back to 8 s. The trailing segment is `Main[8,30)`. |
| `Scenarios.UnsortedPlanOutlastsMainVideo` | tasks.py:270-293 | That unsorted plan makes a 30 s video last 48 s. |

## Left out

- Transcription (Whisper), the chat-completion calls and their prompts (tasks.py:112-129, 200-226) are foreign services. Their replies are inputs. A `None` reply stands for a raised call. This includes a `None` message content, which raises rather than giving a decode error: a TypeError in `json.loads` for the keyword reply (tasks.py:132-136), an AttributeError in `.strip()` for the plan reply (tasks.py:226).
- The stock-search HTTP request, `raise_for_status` and reading `videos` (tasks.py:160-173) are one `SearchOutcome` per keyword value. Search results are assumed well-formed: each file has a string `quality`, an integer `height` and a `link`, and each hit has a numeric duration. A file with a null height, which would raise inside the variant choice, is not modelled.
- `download_clip` (tasks.py:313-323) of the main video is a boolean service input. The b-roll downloads inside the assembly loop (tasks.py:282) are folded into the `render` input. A failed b-roll download therefore shows as a failed render, not as a failure in the middle of the loop.
- moviepy is not modelled: loading, `subclip`, `crossfadein`, `concatenate_videoclips`, `write_videofile` and closing (tasks.py:267, 283-305). Segments are tagged intervals, and the fade is a field of each b-roll segment. moviepy's handling of subclip times is not modelled: times past the end of a clip, negative times (counted back from the clip's end, so a negative duration at tasks.py:283 gives a clip shorter than the b-roll rather than an error), and an empty segment list handed to `concatenate_videoclips`.
- The Supabase upload and public URL (tasks.py:89-94) are an upload flag and an opaque URL.
- Celery registration, logging and the FFmpeg start-up probe (tasks.py:35-63) are left out. The f-strings in logging calls are kept where they raise: `keyword_data['keyword']` at tasks.py:159 and 192.
- Status writes are abstract events that always succeed. The `update_reel_status` calls at tasks.py:67, 100 and 106 pass the job id where `db_operations.py:13` expects a client first. That mismatch would make each call raise, and it is not modelled.
- The downloaded b-roll files (tasks.py:282) are not tracked among the scratch files. The code never deletes them on any path.
- `VideoAssembly.AssembleTimeline`, `VideoAssembly.Timeline`, `VideoAssembly.SegmentCount` and `VideoAssembly.OutputLength` use exact reals. Python adds and compares timestamps as IEEE-754 floats (tasks.py:276, 289, 292), and their rounding is not modelled. For example, after an edit at 0.7 s lasting 0.1 s, Python's cursor is 0.7999999999999999. A following edit at 0.8 s then gets a tiny extra main segment in the program, but no segment in the model.
- `VideoAssembly.OutputLength`, `VideoAssembly.Timeline` and `JsonValues.Num`: the non-finite numbers `NaN`, `Infinity` and `-Infinity`, which `json.loads` accepts (tasks.py:136, 230), are not represented. Nothing at tasks.py:235-241 checks timestamps, so a plan with a `NaN` timestamp reaches assembly. There `NaN > current_time` is false, so no gap is emitted (tasks.py:276). The cursor becomes `NaN` (tasks.py:289), so every later gap comparison and the trailing check (tasks.py:292) are false too. The output can then be shorter than the main video, which `OutputLength` rules out for the finite numbers the model holds.
- Python-specific JSON semantics are not modelled. JSON booleans are not numbers here, while Python compares `true` with `1` as equal. Membership tests on non-dict edits (substring tests on strings, element tests on lists) are treated as a failed key check. Python's exception for them may be a TypeError instead, but every such edit raises either way.
- `main.py`, `db_operations.py` and `config.py` are HTTP routes, request models, database wrappers and settings loading. They hold no worker logic and are not part of this model.
- Re-running a job is not modelled beyond the status history: `ProcessVideoWithBroll` is deterministic in its inputs, and `RunsAlternate` covers repeated runs.

=== FILE: assembly.dfy ===
/** The segment-building pass of `create_final_video` (tasks.py:264-311). */
module VideoAssembly {
  import opened JsonValues
  import opened Outcomes
  import opened BrollResolver

  /** The fade-in applied to every b-roll segment (`crossfadein(0.5)`, tasks.py:286). */
  const FadeIn: real := 0.5

  /** One piece of the output, in seconds: a slice of the main video or the head of a b-roll clip. */
  datatype Segment =
    | MainSlice(start: real, end: real)
    | BrollSlice(clip: Clip, start: real, end: real, fadeIn: real)

  /** Where the pass stands after some edits: what it has emitted and `current_time`. */
  datatype Progress = Progress(segments: seq<Segment>, cursor: real)

  function Length(s: Segment): real {
    s.end - s.start
  }

  /** Playing time of a list of segments. */
  function TotalLength(segs: seq<Segment>): real {
    if segs == [] then 0.0 else TotalLength(segs[..|segs| - 1]) + Length(segs[|segs| - 1])
  }

  lemma {:induction false} TotalLengthAppend(a: seq<Segment>, b: seq<Segment>)
    ensures TotalLength(a + b) == TotalLength(a) + TotalLength(b)
    decreases |b|
  {
    if b != [] {
      var n := |b| - 1;
      assert (a + b)[..|a + b| - 1] == a + b[..n];
      TotalLengthAppend(a, b[..n]);
    } else {
      assert a + b == a;
    }
  }

  /** Index of the first clip at or after `from` whose keyword equals `id`, or `|clips|`. */
  function FirstClipNamed(clips: seq<Clip>, id: Json, from: nat): (k: nat)
    requires from <= |clips|
    ensures from <= k <= |clips|
    ensures k < |clips| ==> clips[k].keyword == id
    ensures forall j :: from <= j < k ==> clips[j].keyword != id
    decreases |clips| - from
  {
    if from == |clips| then from
    else if clips[from].keyword == id then from
    else FirstClipNamed(clips, id, from + 1)
  }

  /**
   * `next(clip for clip in broll_clips if clip['keyword'] == edit['clip_id'])` (tasks.py:281):
   * the first clip with that keyword. With no clips the generator never reads `clip_id`
   * and `next` raises StopIteration straight away.
   */
  function LookupClip(edit: Json, clips: seq<Clip>): (r: Result<Clip>)
    ensures r.Ok? <==> HasKey(edit, "clip_id") && exists j :: 0 <= j < |clips| && clips[j].keyword == edit.fields["clip_id"]
    ensures r.Ok? ==>
      exists k :: 0 <= k < |clips| && clips[k] == r.value && r.value.keyword == edit.fields["clip_id"] &&
        forall j :: 0 <= j < k ==> clips[j].keyword != edit.fields["clip_id"]
  {
    if |clips| == 0 then Err(NoMatchingClip)
    else if !HasKey(edit, "clip_id") then Err(FieldMissing)
    else
      var k := FirstClipNamed(clips, edit.fields["clip_id"], 0);
      if k < |clips| then Ok(clips[k]) else Err(NoMatchingClip)
  }

  /** An edit the loop body can get through: numeric timestamp and duration, and a clip to show. */
  predicate Usable(edit: Json, clips: seq<Clip>) {
    HasNumber(edit, "timestamp") && LookupClip(edit, clips).Ok? && HasNumber(edit, "duration")
  }

  /**
   * One pass of the loop body at tasks.py:274-289, from cursor `cursor`. The timestamp is read
   * (and compared with the cursor) first, then the clip is looked up, then the duration is used.
   */
  function Step(edit: Json, clips: seq<Clip>, cursor: real): (r: Result<Progress>)
    ensures r.Ok? <==> Usable(edit, clips)
  {
    if !HasKey(edit, "timestamp") then Err(FieldMissing)
    else if !edit.fields["timestamp"].Num? then Err(NotANumber)
    else
      var ts := edit.fields["timestamp"].n;
      var gap := if ts > cursor then [MainSlice(cursor, ts)] else [];
      match LookupClip(edit, clips)
      case Err(e) => Err(e)
      case Ok(clip) =>
        if !HasKey(edit, "duration") then Err(FieldMissing)
        else if !edit.fields["duration"].Num? then Err(NotANumber)
        else
          var d := edit.fields["duration"].n;
          Ok(Progress(gap + [BrollSlice(clip, 0.0, d, FadeIn)], ts + d))
  }

  /** The loop over the edit plan, in the order given (the plan is not sorted), from cursor 0. */
  function Run(plan: seq<Json>, clips: seq<Clip>): Result<Progress>
  {
    if plan == [] then Ok(Progress([], 0.0))
    else
      match Run(plan[..|plan| - 1], clips)
      case Err(e) => Err(e)
      case Ok(p) =>
        match Step(plan[|plan| - 1], clips, p.cursor)
        case Err(e) => Err(e)
        case Ok(q) => Ok(Progress(p.segments + q.segments, q.cursor))
  }

  /** The segments `create_final_video` concatenates, or what it raises on the way. */
  function Timeline(plan: seq<Json>, clips: seq<Clip>, mainDuration: real): Result<seq<Segment>>
  {
    match Run(plan, clips)
    case Err(e) => Err(e)
    case Ok(p) =>
      Ok(if p.cursor < mainDuration then p.segments + [MainSlice(p.cursor, mainDuration)] else p.segments)
  }

  lemma {:induction false} RunErrorIsFinal(plan: seq<Json>, i: nat, clips: seq<Clip>)
    requires i <= |plan|
    requires Run(plan[..i], clips).Err?
    ensures Run(plan, clips) == Run(plan[..i], clips)
    decreases |plan| - i
  {
    if i == |plan| {
      assert plan[..i] == plan;
    } else {
      var n := |plan| - 1;
      assert plan[..n][..i] == plan[..i];
      RunErrorIsFinal(plan[..n], i, clips);
    }
  }

  /** tasks.py:270-293: the cursor-driven loop that fills `final_clips`. */
  method AssembleTimeline(plan: seq<Json>, clips: seq<Clip>, mainDuration: real) returns (r: Result<seq<Segment>>)
    ensures r == Timeline(plan, clips, mainDuration)
  {
    var finalClips: seq<Segment> := [];
    var currentTime: real := 0.0;
    for i := 0 to |plan|
      invariant Run(plan[..i], clips) == Ok(Progress(finalClips, currentTime))
    {
      assert plan[..i + 1][..i] == plan[..i];
      var edit := plan[i];
      if !HasKey(edit, "timestamp") {
        RunErrorIsFinal(plan, i + 1, clips);
        return Err(FieldMissing);
      }
      if !edit.fields["timestamp"].Num? {
        RunErrorIsFinal(plan, i + 1, clips);
        return Err(NotANumber);
      }
      var ts := edit.fields["timestamp"].n;
      var emitted := finalClips;
      if ts > currentTime {
        emitted := emitted + [MainSlice(currentTime, ts)];
      }
      var broll := LookupClip(edit, clips);
      if broll.Err? {
        RunErrorIsFinal(plan, i + 1, clips);
        return Err(broll.failure);
      }
      if !HasKey(edit, "duration") {
        RunErrorIsFinal(plan, i + 1, clips);
        return Err(FieldMissing);
      }
      if !edit.fields["duration"].Num? {
        RunErrorIsFinal(plan, i + 1, clips);
        return Err(NotANumber);
      }
      var d := edit.fields["duration"].n;
      ghost var gap := if ts > currentTime then [MainSlice(currentTime, ts)] else [];
      assert Step(edit, clips, currentTime) == Ok(Progress(gap + [BrollSlice(broll.value, 0.0, d, FadeIn)], ts + d));
      assert emitted + [BrollSlice(broll.value, 0.0, d, FadeIn)] == finalClips + (gap + [BrollSlice(broll.value, 0.0, d, FadeIn)]);
      finalClips := emitted + [BrollSlice(broll.value, 0.0, d, FadeIn)];
      currentTime := ts + d;
    }
    assert plan[..|plan|] == plan;
    if currentTime < mainDuration {
      finalClips := finalClips + [MainSlice(currentTime, mainDuration)];
    }
    return Ok(finalClips);
  }

  /** Every edit can be got through (each one is `Usable`). */
  predicate AllUsable(plan: seq<Json>, clips: seq<Clip>) {
    Timed(plan) && forall i :: 0 <= i < |plan| ==> LookupClip(plan[i], clips).Ok?
  }

  /** Every edit has a numeric timestamp and duration. */
  predicate Timed(plan: seq<Json>) {
    forall i :: 0 <= i < |plan| ==> HasNumber(plan[i], "timestamp") && HasNumber(plan[i], "duration")
  }

  function Ts(edit: Json): real
    requires HasNumber(edit, "timestamp")
  {
    edit.fields["timestamp"].n
  }

  function Dur(edit: Json): real
    requires HasNumber(edit, "duration")
  {
    edit.fields["duration"].n
  }

  /**
   * The cursor before edit `i`, in closed form: 0 before the first edit, and otherwise the end
   * of the previous edit's b-roll window, wherever the cursor stood before that edit.
   */
  function CursorBefore(plan: seq<Json>, i: nat): real
    requires Timed(plan) && i <= |plan|
  {
    if i == 0 then 0.0 else Ts(plan[i - 1]) + Dur(plan[i - 1])
  }

  /** What edit `i` contributes: main footage up to its timestamp if that lies past the cursor, then its b-roll. */
  function EditSegments(plan: seq<Json>, clips: seq<Clip>, i: nat): seq<Segment>
    requires AllUsable(plan, clips) && i < |plan|
  {
    var c := CursorBefore(plan, i);
    (if Ts(plan[i]) > c then [MainSlice(c, Ts(plan[i]))] else [])
      + [BrollSlice(LookupClip(plan[i], clips).value, 0.0, Dur(plan[i]), FadeIn)]
  }

  /** The contributions of the first `n` edits, in plan order. */
  function EditsSegments(plan: seq<Json>, clips: seq<Clip>, n: nat): seq<Segment>
    requires AllUsable(plan, clips) && n <= |plan|
  {
    if n == 0 then [] else EditsSegments(plan, clips, n - 1) + EditSegments(plan, clips, n - 1)
  }

  /** The main footage left after the last b-roll window, if the cursor stops short of the end. */
  function Trailing(plan: seq<Json>, mainDuration: real): seq<Segment>
    requires Timed(plan)
  {
    var c := CursorBefore(plan, |plan|);
    if c < mainDuration then [MainSlice(c, mainDuration)] else []
  }

  /** Number of edits preceded by a main-video gap. */
  function GapCount(plan: seq<Json>, n: nat): nat
    requires Timed(plan) && n <= |plan|
  {
    if n == 0 then 0
    else GapCount(plan, n - 1) + if Ts(plan[n - 1]) > CursorBefore(plan, n - 1) then 1 else 0
  }

  /** No edit among the first `n` starts before the cursor it meets. */
  predicate NoOverlapBefore(plan: seq<Json>, n: nat)
    requires Timed(plan) && n <= |plan|
  {
    forall i :: 0 <= i < n ==> CursorBefore(plan, i) <= Ts(plan[i])
  }

  /** No edit starts before the previous one's b-roll window has ended, and the first starts at or after 0. */
  predicate NonOverlapping(plan: seq<Json>)
    requires Timed(plan)
  {
    NoOverlapBefore(plan, |plan|)
  }

  lemma {:induction false} RunOfUsablePrefix(plan: seq<Json>, clips: seq<Clip>, n: nat)
    requires AllUsable(plan, clips) && n <= |plan|
    ensures Run(plan[..n], clips) == Ok(Progress(EditsSegments(plan, clips, n), CursorBefore(plan, n)))
  {
    if n > 0 {
      RunOfUsablePrefix(plan, clips, n - 1);
      assert plan[..n][..n - 1] == plan[..n - 1];
      assert plan[..n][n - 1] == plan[n - 1];
    }
  }

  /**
   * The cursor-driven loop emits, edit by edit in plan order, the gap before the edit (only
   * when its timestamp lies past the cursor) and the edit's b-roll, then the trailing main
   * footage when the last cursor is short of the main video's end.
   */
  lemma TimelineOfUsablePlan(plan: seq<Json>, clips: seq<Clip>, mainDuration: real)
    requires AllUsable(plan, clips)
    ensures Timeline(plan, clips, mainDuration) == Ok(EditsSegments(plan, clips, |plan|) + Trailing(plan, mainDuration))
  {
    RunOfUsablePrefix(plan, clips, |plan|);
    assert plan[..|plan|] == plan;
    assert Run(plan, clips) == Ok(Progress(EditsSegments(plan, clips, |plan|), CursorBefore(plan, |plan|)));
    assert EditsSegments(plan, clips, |plan|) + [] == EditsSegments(plan, clips, |plan|);
  }

  lemma {:induction false} RunOkIff(plan: seq<Json>, clips: seq<Clip>)
    ensures Run(plan, clips).Ok? <==> AllUsable(plan, clips)
  {
    if plan != [] {
      var n := |plan| - 1;
      RunOkIff(plan[..n], clips);
      assert forall i :: 0 <= i < n ==> plan[..n][i] == plan[i];
    }
  }

  /** Assembly raises exactly when some edit lacks a numeric timestamp or duration or names no clip. */
  lemma TimelineSucceedsIff(plan: seq<Json>, clips: seq<Clip>, mainDuration: real)
    ensures Timeline(plan, clips, mainDuration).Ok? <==> AllUsable(plan, clips)
  {
    RunOkIff(plan, clips);
  }

  lemma {:induction false} EditsSegmentsCount(plan: seq<Json>, clips: seq<Clip>, n: nat)
    requires AllUsable(plan, clips) && n <= |plan|
    ensures |EditsSegments(plan, clips, n)| == n + GapCount(plan, n)
  {
    if n > 0 {
      EditsSegmentsCount(plan, clips, n - 1);
    }
  }

  /** Segment count = edits + gaps before edits + 1 when there is trailing main footage. */
  lemma SegmentCount(plan: seq<Json>, clips: seq<Clip>, mainDuration: real)
    requires AllUsable(plan, clips)
    ensures Timeline(plan, clips, mainDuration).Ok?
    ensures |Timeline(plan, clips, mainDuration).value| ==
      |plan| + GapCount(plan, |plan|) + if CursorBefore(plan, |plan|) < mainDuration then 1 else 0
  {
    TimelineOfUsablePlan(plan, clips, mainDuration);
    EditsSegmentsCount(plan, clips, |plan|);
  }

  lemma EditSegmentsLength(plan: seq<Json>, clips: seq<Clip>, i: nat)
    requires AllUsable(plan, clips) && i < |plan|
    ensures TotalLength(EditSegments(plan, clips, i)) ==
      (if Ts(plan[i]) > CursorBefore(plan, i) then Ts(plan[i]) - CursorBefore(plan, i) else 0.0) + Dur(plan[i])
  {
    var c := CursorBefore(plan, i);
    var gap: seq<Segment> := if Ts(plan[i]) > c then [MainSlice(c, Ts(plan[i]))] else [];
    var broll := [BrollSlice(LookupClip(plan[i], clips).value, 0.0, Dur(plan[i]), FadeIn)];
    assert EditSegments(plan, clips, i) == gap + broll;
    TotalLengthAppend(gap, broll);
    assert broll[..0] == [];
    if gap != [] {
      assert gap[..0] == [];
    }
  }

  lemma NoOverlapBeforeStep(plan: seq<Json>, n: nat)
    requires Timed(plan) && 0 < n <= |plan|
    ensures NoOverlapBefore(plan, n) <==> NoOverlapBefore(plan, n - 1) && CursorBefore(plan, n - 1) <= Ts(plan[n - 1])
  {
  }

  lemma {:induction false} EditsSegmentsLength(plan: seq<Json>, clips: seq<Clip>, n: nat)
    requires AllUsable(plan, clips) && n <= |plan|
    ensures TotalLength(EditsSegments(plan, clips, n)) >= CursorBefore(plan, n)
    ensures TotalLength(EditsSegments(plan, clips, n)) == CursorBefore(plan, n) <==> NoOverlapBefore(plan, n)
  {
    if n > 0 {
      var front := EditsSegments(plan, clips, n - 1);
      var last := EditSegments(plan, clips, n - 1);
      assert EditsSegments(plan, clips, n) == front + last;
      EditsSegmentsLength(plan, clips, n - 1);
      EditSegmentsLength(plan, clips, n - 1);
      TotalLengthAppend(front, last);
      NoOverlapBeforeStep(plan, n);
    }
  }

  /**
   * The output plays for at least the main video's duration, and for exactly that long iff no
   * edit starts before the previous b-roll window ends and the last window ends within the main
   * video: each b-roll replaces the main footage under it, and an overlapping edit makes the
   * cursor go back and main footage play twice.
   */
  lemma OutputLength(plan: seq<Json>, clips: seq<Clip>, mainDuration: real)
    requires AllUsable(plan, clips)
    ensures Timeline(plan, clips, mainDuration).Ok?
    ensures TotalLength(Timeline(plan, clips, mainDuration).value) >= mainDuration
    ensures TotalLength(Timeline(plan, clips, mainDuration).value) == mainDuration <==>
      NonOverlapping(plan) && CursorBefore(plan, |plan|) <= mainDuration
  {
    TimelineOfUsablePlan(plan, clips, mainDuration);
    EditsSegmentsLength(plan, clips, |plan|);
    var c := CursorBefore(plan, |plan|);
    TotalLengthAppend(EditsSegments(plan, clips, |plan|), Trailing(plan, mainDuration));
    assert TotalLength(Trailing(plan, mainDuration)) == if c < mainDuration then mainDuration - c else 0.0 by {
      if c < mainDuration { assert Trailing(plan, mainDuration)[..0] == []; }
    }
  }

  /** With an empty plan the output is the main video itself, unless it has no length. */
  lemma EmptyPlanKeepsMainVideo(clips: seq<Clip>, mainDuration: real)
    ensures Timeline([], clips, mainDuration) == Ok(if 0.0 < mainDuration then [MainSlice(0.0, mainDuration)] else [])
  {
    assert Run([], clips) == Ok(Progress([], 0.0));
    assert [] + [MainSlice(0.0, mainDuration)] == [MainSlice(0.0, mainDuration)];
  }
}

=== FILE: broll.dfy ===
/** `fetch_broll_clips`: one stock-footage search per keyword, one clip per hit (tasks.py:150-194). */
module BrollResolver {
  import opened JsonValues
  import opened Outcomes

  /** One entry of a search hit's `video_files`. */
  datatype VideoFile = VideoFile(quality: string, height: int, link: string)

  /** One search hit: its file variants and its length in seconds. */
  datatype Video = Video(files: seq<VideoFile>, duration: real)

  /**
   * What the search for one keyword gave: `SearchFailed` when the request, `raise_for_status`
   * or reading `videos` raised, otherwise the list of hits.
   */
  datatype SearchOutcome = SearchFailed | Found(videos: seq<Video>)

  /** A resolved b-roll clip: the source keyword's `keyword` and `timestamp`, the hit's link and length. */
  datatype Clip = Clip(keyword: Json, timestamp: Json, url: string, duration: real)

  /** The generator's condition at tasks.py:178. */
  predicate Qualifies(f: VideoFile) {
    f.quality == "md" || f.height < 1080
  }

  /** Index of the first qualifying file at or after `from`, or `|files|` when there is none. */
  function FirstQualifying(files: seq<VideoFile>, from: nat): (k: nat)
    requires from <= |files|
    ensures from <= k <= |files|
    ensures k < |files| ==> Qualifies(files[k])
    ensures forall j :: from <= j < k ==> !Qualifies(files[j])
    decreases |files| - from
  {
    if from == |files| then from
    else if Qualifies(files[from]) then from
    else FirstQualifying(files, from + 1)
  }

  /**
   * The variant `next(..., video['video_files'][0])` picks. The default is evaluated before
   * `next` runs, so an empty `video_files` raises IndexError (`None` here) even though no
   * file would have been looked at.
   */
  function ChooseVariant(files: seq<VideoFile>): (r: Option<VideoFile>)
    ensures r.None? <==> |files| == 0
    ensures r.Some? && (exists i :: 0 <= i < |files| && Qualifies(files[i])) ==>
      Qualifies(r.value) &&
      exists k :: 0 <= k < |files| && files[k] == r.value && forall j :: 0 <= j < k ==> !Qualifies(files[j])
    ensures r.Some? && (forall i :: 0 <= i < |files| ==> !Qualifies(files[i])) ==> r.value == files[0]
  {
    if |files| == 0 then None
    else
      var k := FirstQualifying(files, 0);
      if k < |files| then Some(files[k]) else Some(files[0])
  }

  /** A keyword whose search, variant choice and `timestamp` lookup all succeed. */
  predicate Resolves(item: Json, search: Json -> SearchOutcome) {
    && HasKey(item, "keyword")
    && HasKey(item, "timestamp")
    && var found := search(item.fields["keyword"]);
    && found.Found?
    && |found.videos| > 0
    && |found.videos[0].files| > 0
  }

  /**
   * One iteration of the loop at tasks.py:157-192: `Err` when it raises out of the loop,
   * `Ok(None)` when the keyword is dropped, `Ok(Some(c))` when `c` is appended.
   */
  function ClipFor(item: Json, search: Json -> SearchOutcome): (r: Result<Option<Clip>>)
    ensures r.Err? <==> !HasKey(item, "keyword")
    ensures r.Err? ==> r.failure == KeywordUnreadable
    ensures r.Ok? ==> (r.value.Some? <==> Resolves(item, search))
    ensures r.Ok? && r.value.Some? ==>
      var c := r.value.value;
      var video := search(item.fields["keyword"]).videos[0];
      && c.keyword == item.fields["keyword"]
      && c.timestamp == item.fields["timestamp"]
      && c.duration == video.duration
      && ChooseVariant(video.files).Some?
      && c.url == ChooseVariant(video.files).value.link
  {
    if !HasKey(item, "keyword") then Err(KeywordUnreadable)
    else
      var keyword := item.fields["keyword"];
      match search(keyword)
      case SearchFailed => Ok(None)
      case Found(videos) =>
        if |videos| == 0 then Ok(None)
        else
          match ChooseVariant(videos[0].files)
          case None => Ok(None)
          case Some(file) =>
            if "timestamp" in item.fields
            then Ok(Some(Clip(keyword, item.fields["timestamp"], file.link, videos[0].duration)))
            else Ok(None)
  }

  /** The result of the whole loop over `keywords`, built one keyword at a time from the front. */
  function BrollClips(keywords: seq<Json>, search: Json -> SearchOutcome): Result<seq<Clip>>
  {
    if keywords == [] then Ok([])
    else
      match BrollClips(keywords[..|keywords| - 1], search)
      case Err(e) => Err(e)
      case Ok(clips) =>
        match ClipFor(keywords[|keywords| - 1], search)
        case Err(e) => Err(e)
        case Ok(None) => Ok(clips)
        case Ok(Some(c)) => Ok(clips + [c])
  }

  /** The loop of tasks.py:152-194, appending to `broll_clips`. */
  method FetchBrollClips(keywords: seq<Json>, search: Json -> SearchOutcome) returns (r: Result<seq<Clip>>)
    ensures r == BrollClips(keywords, search)
  {
    var brollClips: seq<Clip> := [];
    for i := 0 to |keywords|
      invariant BrollClips(keywords[..i], search) == Ok(brollClips)
    {
      assert keywords[..i + 1][..i] == keywords[..i];
      match ClipFor(keywords[i], search)
      case Err(e) =>
        BrollClipsErrorIsFinal(keywords, i + 1, search);
        return Err(e);
      case Ok(None) =>
      case Ok(Some(c)) =>
        brollClips := brollClips + [c];
    }
    assert keywords[..|keywords|] == keywords;
    return Ok(brollClips);
  }

  /** Once the loop has raised on a prefix, the keywords after it change nothing. */
  lemma {:induction false} BrollClipsErrorIsFinal(keywords: seq<Json>, i: nat, search: Json -> SearchOutcome)
    requires i <= |keywords|
    requires BrollClips(keywords[..i], search).Err?
    ensures BrollClips(keywords, search) == BrollClips(keywords[..i], search)
    decreases |keywords| - i
  {
    if i == |keywords| {
      assert keywords[..i] == keywords;
    } else {
      var n := |keywords| - 1;
      assert keywords[..n][..i] == keywords[..i];
      BrollClipsErrorIsFinal(keywords[..n], i, search);
    }
  }

  /** Positions of the keywords that produce a clip, in order. */
  ghost function KeptPositions(keywords: seq<Json>, search: Json -> SearchOutcome): (ps: seq<nat>)
    ensures |ps| <= |keywords|
    ensures forall j :: 0 <= j < |ps| ==> ps[j] < |keywords|
    ensures forall j, j' :: 0 <= j < j' < |ps| ==> ps[j] < ps[j']
    ensures forall i :: 0 <= i < |keywords| ==> (i in ps <==> Resolves(keywords[i], search))
  {
    if keywords == [] then []
    else
      var n := |keywords| - 1;
      var front := KeptPositions(keywords[..n], search);
      assert forall i :: 0 <= i < n ==> keywords[..n][i] == keywords[i];
      front + if Resolves(keywords[n], search) then [n] else []
  }

  /** The resolver raises exactly when some keyword item cannot be indexed by 'keyword'. */
  lemma {:induction false} BrollClipsFailIff(keywords: seq<Json>, search: Json -> SearchOutcome)
    ensures BrollClips(keywords, search).Err? <==> exists i :: 0 <= i < |keywords| && !HasKey(keywords[i], "keyword")
    ensures BrollClips(keywords, search).Err? ==> BrollClips(keywords, search).failure == KeywordUnreadable
  {
    if keywords != [] {
      var n := |keywords| - 1;
      BrollClipsFailIff(keywords[..n], search);
      assert forall i :: 0 <= i < n ==> keywords[..n][i] == keywords[i];
    }
  }

  /**
   * The clips are the keywords that resolved, in input order, one each: clip `j` comes from
   * keyword `KeptPositions(..)[j]` and carries its keyword, timestamp and search data.
   */
  lemma {:induction false} BrollClipsOrderedSubsequence(keywords: seq<Json>, search: Json -> SearchOutcome)
    requires BrollClips(keywords, search).Ok?
    ensures var clips := BrollClips(keywords, search).value;
      var ps := KeptPositions(keywords, search);
      && |clips| == |ps| <= |keywords|
      && forall j :: 0 <= j < |clips| ==> ClipFor(keywords[ps[j]], search) == Ok(Some(clips[j]))
  {
    if keywords != [] {
      var n := |keywords| - 1;
      BrollClipsOrderedSubsequence(keywords[..n], search);
      assert forall i :: 0 <= i < n ==> keywords[..n][i] == keywords[i];
    }
  }
}

=== FILE: edit_plan.dfy ===
/** `generate_edit_plan`: validation of the model's plan and the fallback plan (tasks.py:229-262). */
module EditPlanning {
  import opened JsonValues
  import opened Outcomes
  import opened BrollResolver

  /** The keys every edit must hold (tasks.py:236). */
  const RequiredKeys: set<string> := {"action", "timestamp", "duration", "clip_id"}

  /** `all(key in edit for key in required_keys)` for a dict; any other value has no keys to offer. */
  predicate HasRequiredKeys(edit: Json) {
    edit.Obj? && RequiredKeys <= edit.fields.Keys
  }

  /** `any(clip['keyword'] == edit['clip_id'] for clip in broll_clips)`. */
  predicate NamesClip(edit: Json, clips: seq<Clip>)
    requires HasRequiredKeys(edit)
  {
    exists j :: 0 <= j < |clips| && clips[j].keyword == edit.fields["clip_id"]
  }

  /** An edit the loop at tasks.py:235-241 lets through. */
  predicate ValidEdit(edit: Json, clips: seq<Clip>) {
    HasRequiredKeys(edit) && NamesClip(edit, clips)
  }

  /** The error one edit raises in the validation loop, if any; the key check comes first. */
  function EditError(edit: Json, clips: seq<Clip>): (r: Option<Failure>)
    ensures r.None? <==> ValidEdit(edit, clips)
    ensures r.Some? ==> (r.value == MissingKeys <==> !HasRequiredKeys(edit))
    ensures r.Some? ==> r.value in {MissingKeys, InvalidClipId}
  {
    if !HasRequiredKeys(edit) then Some(MissingKeys)
    else if !NamesClip(edit, clips) then Some(InvalidClipId)
    else None
  }

  /** The error the validation loop raises: that of the first edit that raises one. */
  function FirstEditError(edits: seq<Json>, clips: seq<Clip>): (r: Option<Failure>)
    ensures r.None? <==> forall i :: 0 <= i < |edits| ==> ValidEdit(edits[i], clips)
    ensures r.Some? ==>
      exists i :: 0 <= i < |edits| && r == EditError(edits[i], clips) &&
        forall j :: 0 <= j < i ==> ValidEdit(edits[j], clips)
  {
    if edits == [] then None
    else
      var e := EditError(edits[0], clips);
      if e.Some? then e
      else
        var rest := FirstEditError(edits[1..], clips);
        assert forall i :: 1 <= i < |edits| ==> edits[1..][i - 1] == edits[i];
        rest
  }

  /**
   * The model's decoded plan (tasks.py:230-244): a non-array raises, an array passes only
   * when every edit has the four keys and names a resolved clip, and is then returned as is.
   */
  function CheckPlan(v: Json, clips: seq<Clip>): (r: Result<seq<Json>>)
    ensures r.Ok? <==> v.Arr? && forall i :: 0 <= i < |v.items| ==> ValidEdit(v.items[i], clips)
    ensures r.Ok? ==> r.value == v.items
    ensures !v.Arr? ==> r == Err(NotAList)
    ensures v.Arr? && r.Err? ==>
      exists i :: 0 <= i < |v.items| && EditError(v.items[i], clips) == Some(r.failure) &&
        forall j :: 0 <= j < i ==> ValidEdit(v.items[j], clips)
  {
    if !v.Arr? then Err(NotAList)
    else
      match FirstEditError(v.items, clips)
      case None => Ok(v.items)
      case Some(e) => Err(e)
  }

  /** `min(3, clip['duration'])`: Python's `min` keeps its first argument unless the second is smaller. */
  function MinThree(d: real): (m: real)
    ensures m <= 3.0 && m <= d
    ensures m == 3.0 || m == d
  {
    if d < 3.0 then d else 3.0
  }

  /** The fallback edit for one clip (tasks.py:251-256). */
  function FallbackEdit(clip: Clip): (e: Json)
    ensures HasRequiredKeys(e) && e.fields.Keys == RequiredKeys
    ensures e.fields["action"] == Str("insert_broll")
    ensures e.fields["timestamp"] == clip.timestamp
    ensures e.fields["clip_id"] == clip.keyword
    ensures e.fields["duration"] == Num(MinThree(clip.duration))
  {
    Obj(map["action" := Str("insert_broll"), "timestamp" := clip.timestamp,
            "duration" := Num(MinThree(clip.duration)), "clip_id" := clip.keyword])
  }

  /** The fallback plan: one edit per resolved clip, in clip order. */
  function FallbackPlan(clips: seq<Clip>): (plan: seq<Json>)
    ensures |plan| == |clips|
    ensures forall i :: 0 <= i < |clips| ==> plan[i] == FallbackEdit(clips[i])
  {
    if clips == [] then []
    else FallbackPlan(clips[..|clips| - 1]) + [FallbackEdit(clips[|clips| - 1])]
  }

  /** What `generate_edit_plan` returns or raises, given the parsed reply. */
  function EditPlan(reply: Parsed, clips: seq<Clip>): Result<seq<Json>>
  {
    match reply
    case DecodeError => Ok(FallbackPlan(clips))
    case Decoded(v) => CheckPlan(v, clips)
  }

  /** tasks.py:229-262: validate the decoded reply, or build the fallback plan with a loop. */
  method GenerateEditPlan(reply: Parsed, clips: seq<Clip>) returns (r: Result<seq<Json>>)
    ensures r == EditPlan(reply, clips)
  {
    match reply
    case Decoded(v) =>
      r := CheckPlan(v, clips);
    case DecodeError =>
      var fallbackPlan: seq<Json> := [];
      for i := 0 to |clips|
        invariant fallbackPlan == FallbackPlan(clips[..i])
      {
        assert clips[..i + 1][..i] == clips[..i];
        fallbackPlan := fallbackPlan + [FallbackEdit(clips[i])];
      }
      assert clips[..|clips|] == clips;
      r := Ok(fallbackPlan);
  }

  /** The fallback plan would itself pass the validation the model's plan must pass. */
  lemma FallbackPlanPassesValidation(clips: seq<Clip>)
    ensures CheckPlan(Arr(FallbackPlan(clips)), clips) == Ok(FallbackPlan(clips))
  {
    var plan := FallbackPlan(clips);
    forall i | 0 <= i < |plan|
      ensures ValidEdit(plan[i], clips)
    {
      assert clips[i].keyword == plan[i].fields["clip_id"];
    }
  }

  /**
   * Whatever `generate_edit_plan` returns, from the model or from the fallback, holds only
   * edits with all four keys whose clip_id names a resolved clip.
   */
  lemma EditPlanEntriesAreValid(reply: Parsed, clips: seq<Clip>)
    requires EditPlan(reply, clips).Ok?
    ensures forall i :: 0 <= i < |EditPlan(reply, clips).value| ==> ValidEdit(EditPlan(reply, clips).value[i], clips)
  {
    if reply.DecodeError? {
      FallbackPlanPassesValidation(clips);
    }
  }

  /** With no resolved clips, only an empty plan survives: a non-empty model plan names no clip. */
  lemma NoClipsNoEdits(reply: Parsed)
    requires EditPlan(reply, []).Ok?
    ensures EditPlan(reply, []).value == []
  {
    EditPlanEntriesAreValid(reply, []);
  }
}

=== FILE: json.dfy ===
/** Values produced by Python's `json.loads`, as the worker handles them. */
module JsonValues {

  /**
   * A decoded JSON value. Integers and floats are both `Num`, since Python compares them by value;
   * numbers are exact reals, so floating-point rounding of Python floats is not represented, and
   * neither are the non-finite values `NaN`, `Infinity` and `-Infinity` that `json.loads` accepts.
   */
  datatype Json =
    | Null
    | Bool(b: bool)
    | Num(n: real)
    | Str(s: string)
    | Arr(items: seq<Json>)
    | Obj(fields: map<string, Json>)

  /** What `json.loads` made of a chat-completion reply: a decode failure or a value. */
  datatype Parsed = DecodeError | Decoded(value: Json)

  /** `v[key]` succeeds: `v` is a dict holding `key` (on any other JSON value indexing by a string raises). */
  predicate HasKey(v: Json, key: string) {
    v.Obj? && key in v.fields
  }

  /** `v[key]` holds a number. */
  predicate HasNumber(v: Json, key: string) {
    HasKey(v, key) && v.fields[key].Num?
  }
}

=== FILE: keywords.dfy ===
/** How `extract_keywords_from_video` interprets the chat model's reply (tasks.py:135-148). */
module KeywordExtraction {
  import opened JsonValues
  import opened Outcomes

  /** The candidate substituted when the reply is not valid JSON. */
  const FallbackKeywords: seq<Json> := [Obj(map["keyword" := Str("general"), "timestamp" := Num(0.0)])]

  /**
   * Only a decode failure falls back; a decoded array is passed on as it is, with no
   * check of its items; any other decoded value raises the ValueError of tasks.py:138, which
   * the handler at tasks.py:146-148 re-raises.
   */
  function InterpretKeywordReply(reply: Parsed): (r: Result<seq<Json>>)
    ensures r.Err? <==> reply.Decoded? && !reply.value.Arr?
    ensures r.Err? ==> r.failure == NotAList
    ensures reply.DecodeError? ==> r == Ok([Obj(map["keyword" := Str("general"), "timestamp" := Num(0.0)])])
    ensures reply.Decoded? && reply.value.Arr? ==> r == Ok(reply.value.items)
  {
    match reply
    case DecodeError => Ok(FallbackKeywords)
    case Decoded(v) => if v.Arr? then Ok(v.items) else Err(NotAList)
  }
}

=== FILE: outcomes.dfy ===
/** The exceptions the worker raises, and the result types that carry them. */
module Outcomes {

  /** Why a stage raised. Every one of these propagates to the job's `failed` status. */
  datatype Failure =
    | Upstream          // a foreign service (transcription, chat completion, download, media library, storage) raised
    | NotAList          // ValueError: the decoded reply is not a JSON array
    | KeywordUnreadable // `keyword_data['keyword']` raised, and raised again in the except handler
    | MissingKeys       // ValueError: an edit lacks one of action, timestamp, duration, clip_id
    | InvalidClipId     // ValueError: an edit's clip_id is no resolved clip's keyword
    | FieldMissing      // KeyError or TypeError reading an edit during assembly
    | NotANumber        // TypeError comparing or adding a non-numeric timestamp or duration
    | NoMatchingClip    // StopIteration: `next` found no clip for the edit's clip_id

  datatype Option<+T> = None | Some(value: T)

  datatype Result<+T> = Ok(value: T) | Err(failure: Failure)
}

=== FILE: pipeline.dfy ===
/** `process_video_with_broll`: the stage sequence and the job's status writes (tasks.py:63-107). */
module Orchestrator {
  import opened JsonValues
  import opened Outcomes
  import opened KeywordExtraction
  import opened BrollResolver
  import opened EditPlanning
  import opened VideoAssembly

  /** A value written to the job record's `status` (with the output URL on completion). */
  datatype Status = Processing | Completed(outputUrl: string) | Failed

  /** A scratch file the worker leaves on local disk until it unlinks it. */
  datatype ScratchFile = MainVideo | RenderedOutput

  /**
   * What the foreign services do for one run. `None` replies mean the transcription or the
   * chat call raised; `render` says whether downloading the b-roll files, concatenating the
   * given segments and writing the output file succeed.
   */
  datatype Services = Services(
    mainVideoDownloaded: bool,
    keywordReply: Option<Parsed>,
    search: Json -> SearchOutcome,
    planReply: Option<Parsed>,
    mainDuration: Option<real>,
    render: seq<Segment> -> bool,
    uploaded: bool,
    publicUrl: string)

  /** The stages from the download of the main video to the segment list (tasks.py:70-86). */
  function Segments(env: Services): Result<seq<Segment>>
  {
    if !env.mainVideoDownloaded || env.keywordReply.None? then Err(Upstream)
    else
      match InterpretKeywordReply(env.keywordReply.value)
      case Err(e) => Err(e)
      case Ok(keywords) =>
        match BrollClips(keywords, env.search)
        case Err(e) => Err(e)
        case Ok(clips) =>
          if env.planReply.None? then Err(Upstream)
          else
            match EditPlan(env.planReply.value, clips)
            case Err(e) => Err(e)
            case Ok(plan) =>
              if env.mainDuration.None? then Err(Upstream)
              else Timeline(plan, clips, env.mainDuration.value)
  }

  /** The output file was written (tasks.py:296-300). */
  predicate Rendered(env: Services) {
    Segments(env).Ok? && env.render(Segments(env).value)
  }

  /** What the Celery job returns (the output URL) or raises. */
  function Outcome(env: Services): Result<string>
  {
    if !Rendered(env) then
      if Segments(env).Err? then Err(Segments(env).failure) else Err(Upstream)
    else if !env.uploaded then Err(Upstream)
    else Ok(env.publicUrl)
  }

  /** The scratch files a failed run leaves behind: nothing is unlinked on the failure path. */
  function LeftBehind(env: Services): multiset<ScratchFile>
  {
    (if env.mainVideoDownloaded then multiset{MainVideo} else multiset{})
      + (if Rendered(env) then multiset{RenderedOutput} else multiset{})
  }

  /**
   * A job's status history over any number of runs: each run writes `processing` and then
   * exactly one terminal status, so a terminal status is never followed by anything but a new run.
   */
  ghost predicate RunsAlternate(writes: seq<Status>)
  {
    |writes| % 2 == 0 && forall k :: 0 <= k < |writes| ==> (writes[k].Processing? <==> k % 2 == 0)
  }

  lemma {:induction false} RunsAlternateAppend(writes: seq<Status>, terminal: Status)
    requires RunsAlternate(writes) && !terminal.Processing?
    ensures RunsAlternate(writes + [Processing, terminal])
  {
    var w := writes + [Processing, terminal];
    forall k | 0 <= k < |w|
      ensures w[k].Processing? <==> k % 2 == 0
    {
      if k >= |writes| {
        assert k == |writes| || k == |writes| + 1;
      }
    }
  }

  /** A resolved clip's timestamp is its source keyword's, so numeric keyword timestamps give numeric clip timestamps. */
  lemma ClipTimestampsAreNumeric(keywords: seq<Json>, search: Json -> SearchOutcome)
    requires forall i :: 0 <= i < |keywords| ==> HasKey(keywords[i], "keyword")
    requires forall i :: 0 <= i < |keywords| && HasKey(keywords[i], "timestamp") ==> HasNumber(keywords[i], "timestamp")
    ensures BrollClips(keywords, search).Ok?
    ensures forall j :: 0 <= j < |BrollClips(keywords, search).value| ==> BrollClips(keywords, search).value[j].timestamp.Num?
  {
    BrollClipsFailIff(keywords, search);
    BrollClipsOrderedSubsequence(keywords, search);
  }

  /**
   * The fallback plan assembles exactly when every resolved clip's timestamp, copied unchecked
   * from the model's keyword reply, is a number: the fallback's other fields always fit.
   */
  lemma FallbackPlanAssemblesIff(clips: seq<Clip>, mainDuration: real)
    ensures Timeline(FallbackPlan(clips), clips, mainDuration).Ok? <==>
      forall i :: 0 <= i < |clips| ==> clips[i].timestamp.Num?
  {
    FallbackPlanAssemblesIffTimed(clips, mainDuration);
    FallbackPlanTimedIff(clips);
  }

  lemma FallbackPlanAssemblesIffTimed(clips: seq<Clip>, mainDuration: real)
    ensures Timeline(FallbackPlan(clips), clips, mainDuration).Ok? <==> Timed(FallbackPlan(clips))
  {
    var plan := FallbackPlan(clips);
    TimelineSucceedsIff(plan, clips, mainDuration);
    FallbackEditsFindTheirClips(clips);
  }

  lemma FallbackEditsFindTheirClips(clips: seq<Clip>)
    ensures AllUsable(FallbackPlan(clips), clips) <==> Timed(FallbackPlan(clips))
  {
    var plan := FallbackPlan(clips);
    forall i | 0 <= i < |plan|
      ensures LookupClip(plan[i], clips).Ok?
    {
      assert plan[i] == FallbackEdit(clips[i]);
      assert clips[i].keyword == plan[i].fields["clip_id"];
    }
  }

  lemma FallbackPlanTimedIff(clips: seq<Clip>)
    ensures Timed(FallbackPlan(clips)) <==> forall i :: 0 <= i < |clips| ==> clips[i].timestamp.Num?
  {
    var plan := FallbackPlan(clips);
    forall i | 0 <= i < |clips|
      ensures (HasNumber(plan[i], "timestamp") && HasNumber(plan[i], "duration")) <==> clips[i].timestamp.Num?
    {
      var e := FallbackEdit(clips[i]);
      assert plan[i] == e;
      assert e.fields["timestamp"] == clips[i].timestamp;
      assert e.fields["duration"].Num?;
    }
  }

  /**
   * When both model replies fail JSON decoding, the fallbacks carry the job through every
   * stage of its own: only the services (render, upload) can still fail it.
   */
  lemma DecodeFailuresNeverFailTheLogic(env: Services)
    requires env.mainVideoDownloaded && env.mainDuration.Some?
    requires env.keywordReply == Some(DecodeError) && env.planReply == Some(DecodeError)
    ensures Segments(env).Ok?
    ensures Outcome(env) == if env.render(Segments(env).value) && env.uploaded then Ok(env.publicUrl) else Err(Upstream)
  {
    ClipTimestampsAreNumeric(FallbackKeywords, env.search);
    FallbackPlanAssemblesIff(BrollClips(FallbackKeywords, env.search).value, env.mainDuration.value);
  }

  /** The job record and the local disk as one worker sees them. */
  class Worker {
    /** Every `update_reel_status` call made for the job, in order. */
    var statusWrites: seq<Status>
    /** Scratch files still on disk. */
    var scratch: multiset<ScratchFile>

    constructor ()
      ensures statusWrites == [] && scratch == multiset{}
    {
      statusWrites := [];
      scratch := multiset{};
    }

    /** The body of the `try` after the first status write (tasks.py:70-98). */
    method RunStages(env: Services) returns (r: Result<string>)
      modifies this`scratch
      ensures r == Outcome(env)
      ensures scratch == old(scratch) + if r.Ok? then multiset{} else LeftBehind(env)
    {
      if !env.mainVideoDownloaded {
        return Err(Upstream);
      }
      scratch := scratch + multiset{MainVideo};
      if env.keywordReply.None? {
        return Err(Upstream);
      }
      var keywords := InterpretKeywordReply(env.keywordReply.value);
      if keywords.Err? {
        return Err(keywords.failure);
      }
      var clips := FetchBrollClips(keywords.value, env.search);
      if clips.Err? {
        return Err(clips.failure);
      }
      if env.planReply.None? {
        return Err(Upstream);
      }
      var plan := GenerateEditPlan(env.planReply.value, clips.value);
      if plan.Err? {
        return Err(plan.failure);
      }
      if env.mainDuration.None? {
        return Err(Upstream);
      }
      var segments := AssembleTimeline(plan.value, clips.value, env.mainDuration.value);
      if segments.Err? {
        return Err(segments.failure);
      }
      if !env.render(segments.value) {
        return Err(Upstream);
      }
      scratch := scratch + multiset{RenderedOutput};
      if !env.uploaded {
        return Err(Upstream);
      }
      scratch := scratch - multiset{MainVideo} - multiset{RenderedOutput};
      return Ok(env.publicUrl);
    }

    /**
     * tasks.py:63-107: write `processing`, run the stages, then write `completed` with the URL,
     * or `failed` (with no URL) and re-raise.
     */
    method ProcessVideoWithBroll(env: Services) returns (r: Result<string>)
      modifies this
      ensures r == Outcome(env)
      ensures statusWrites == old(statusWrites) + [Processing, if r.Ok? then Completed(r.value) else Failed]
      ensures r.Ok? ==> r.value == env.publicUrl
      ensures scratch == old(scratch) + if r.Ok? then multiset{} else LeftBehind(env)
      ensures RunsAlternate(old(statusWrites)) ==> RunsAlternate(statusWrites)
    {
      statusWrites := statusWrites + [Processing];
      r := RunStages(env);
      if r.Ok? {
        statusWrites := statusWrites + [Completed(r.value)];
      } else {
        statusWrites := statusWrites + [Failed];
      }
      if RunsAlternate(old(statusWrites)) {
        RunsAlternateAppend(old(statusWrites), statusWrites[|statusWrites| - 1]);
        assert statusWrites == old(statusWrites) + [Processing, statusWrites[|statusWrites| - 1]];
      }
    }
  }
}

=== FILE: scenarios.dfy ===
/** Worked examples of variant choice and of the assembly pass on concrete edit plans. */
module Scenarios {
  import opened JsonValues
  import opened Outcomes
  import opened BrollResolver
  import opened VideoAssembly

  /** An edit as the model is asked to write it. */
  function Edit(timestamp: real, duration: real, clipId: string): Json {
    Obj(map["action" := Str("insert_broll"), "timestamp" := Num(timestamp),
            "duration" := Num(duration), "clip_id" := Str(clipId)])
  }

  /**
   * The variant rule takes the first file that is `md` or below 1080 lines; it does not look
   * further for an `md` file. So an `sd` 360-line file listed before an `md` 720-line one wins.
   */
  lemma LowResolutionFileBeforeMediumWins(link1: string, link2: string)
    ensures ChooseVariant([VideoFile("sd", 360, link1), VideoFile("md", 720, link2)]) ==
      Some(VideoFile("sd", 360, link1))
  {
  }

  /** With no `md` file and none below 1080 lines, the first listed file is used. */
  lemma NoQualifyingFileTakesFirst(link1: string, link2: string)
    ensures ChooseVariant([VideoFile("hd", 1080, link1), VideoFile("uhd", 2160, link2)]) ==
      Some(VideoFile("hd", 1080, link1))
  {
  }

  /**
   * Keywords "mountain" at 10 s and "river" at 25 s, 3 s of b-roll each: main footage up to
   * 10 s, the mountain clip, main footage 13-25 s, the river clip, then main footage from 28 s.
   */
  lemma MountainAndRiver(clips: seq<Clip>, mainDuration: real)
    requires |clips| == 2 && clips[0].keyword == Str("mountain") && clips[1].keyword == Str("river")
    requires mainDuration > 28.0
    ensures Timeline([Edit(10.0, 3.0, "mountain"), Edit(25.0, 3.0, "river")], clips, mainDuration) ==
      Ok([MainSlice(0.0, 10.0), BrollSlice(clips[0], 0.0, 3.0, FadeIn),
          MainSlice(13.0, 25.0), BrollSlice(clips[1], 0.0, 3.0, FadeIn),
          MainSlice(28.0, mainDuration)])
  {
    var plan := [Edit(10.0, 3.0, "mountain"), Edit(25.0, 3.0, "river")];
    assert LookupClip(plan[0], clips) == Ok(clips[0]);
    assert LookupClip(plan[1], clips) == Ok(clips[1]);
    TimelineOfUsablePlan(plan, clips, mainDuration);
    assert CursorBefore(plan, 1) == 13.0 && CursorBefore(plan, 2) == 28.0;
    assert EditSegments(plan, clips, 0) == [MainSlice(0.0, 10.0), BrollSlice(clips[0], 0.0, 3.0, FadeIn)];
    assert EditSegments(plan, clips, 1) == [MainSlice(13.0, 25.0), BrollSlice(clips[1], 0.0, 3.0, FadeIn)];
    assert EditsSegments(plan, clips, 1) == [] + EditSegments(plan, clips, 0) == EditSegments(plan, clips, 0);
    assert EditsSegments(plan, clips, 2) == EditSegments(plan, clips, 0) + EditSegments(plan, clips, 1);
    assert Trailing(plan, mainDuration) == [MainSlice(28.0, mainDuration)];
    assert EditsSegments(plan, clips, 2) + Trailing(plan, mainDuration) ==
      [MainSlice(0.0, 10.0), BrollSlice(clips[0], 0.0, 3.0, FadeIn),
       MainSlice(13.0, 25.0), BrollSlice(clips[1], 0.0, 3.0, FadeIn),
       MainSlice(28.0, mainDuration)];
  }

  /**
   * The plan is used in the order given. An edit at 5 s after one at 20 s moves the cursor
   * back to 8 s, so main footage from 8 s to 20 s plays twice and the 30 s video lasts 48 s.
   */
  lemma UnsortedPlanReplaysFootage(clips: seq<Clip>)
    requires |clips| == 1 && clips[0].keyword == Str("sky")
    ensures Timeline([Edit(20.0, 3.0, "sky"), Edit(5.0, 3.0, "sky")], clips, 30.0) ==
      Ok([MainSlice(0.0, 20.0), BrollSlice(clips[0], 0.0, 3.0, FadeIn),
          BrollSlice(clips[0], 0.0, 3.0, FadeIn), MainSlice(8.0, 30.0)])
  {
    var plan := [Edit(20.0, 3.0, "sky"), Edit(5.0, 3.0, "sky")];
    assert LookupClip(plan[0], clips) == Ok(clips[0]);
    assert LookupClip(plan[1], clips) == Ok(clips[0]);
    TimelineOfUsablePlan(plan, clips, 30.0);
    assert CursorBefore(plan, 1) == 23.0 && CursorBefore(plan, 2) == 8.0;
    assert EditSegments(plan, clips, 0) == [MainSlice(0.0, 20.0), BrollSlice(clips[0], 0.0, 3.0, FadeIn)];
    assert EditSegments(plan, clips, 1) == [BrollSlice(clips[0], 0.0, 3.0, FadeIn)];
    assert EditsSegments(plan, clips, 1) == [] + EditSegments(plan, clips, 0) == EditSegments(plan, clips, 0);
    assert EditsSegments(plan, clips, 2) == EditSegments(plan, clips, 0) + EditSegments(plan, clips, 1);
    assert Trailing(plan, 30.0) == [MainSlice(8.0, 30.0)];
    assert EditsSegments(plan, clips, 2) + Trailing(plan, 30.0) ==
      [MainSlice(0.0, 20.0), BrollSlice(clips[0], 0.0, 3.0, FadeIn),
       BrollSlice(clips[0], 0.0, 3.0, FadeIn), MainSlice(8.0, 30.0)];
  }

  /** The replayed footage makes the output of the plan above 48 s long, against a 30 s main video. */
  lemma UnsortedPlanOutlastsMainVideo(clips: seq<Clip>)
    requires |clips| == 1 && clips[0].keyword == Str("sky")
    ensures Timeline([Edit(20.0, 3.0, "sky"), Edit(5.0, 3.0, "sky")], clips, 30.0).Ok?
    ensures TotalLength(Timeline([Edit(20.0, 3.0, "sky"), Edit(5.0, 3.0, "sky")], clips, 30.0).value) == 48.0
  {
    UnsortedPlanReplaysFootage(clips);
    var segs := Timeline([Edit(20.0, 3.0, "sky"), Edit(5.0, 3.0, "sky")], clips, 30.0).value;
    assert segs[..1] == [MainSlice(0.0, 20.0)] && segs[..1][..0] == [];
    assert TotalLength(segs[..1]) == 20.0;
    assert segs[..2][..1] == segs[..1];
    assert TotalLength(segs[..2]) == 23.0;
    assert segs[..3][..2] == segs[..2];
    assert TotalLength(segs[..3]) == 26.0;
    assert segs[..4][..3] == segs[..3] && segs[..4] == segs;
  }
}
